=== FILE: README.md ===
# googD — a verified model of a Google Drive command-line client

`googD` authenticates against Google Drive with OAuth 2.0. It then performs one of
four operations on the Drive root or on a named root folder: list, upload, download
or delete. This project models three parts of the client in Dafny:

- the credential lifecycle (`functions/auth.py`);
- name resolution and the four storage operations (`functions/storage_operations.py`);
- the flag-to-operation dispatch in `googD.py`.

The Drive service is an in-memory table of objects (`RemoteStore.Drive`) with a
fresh-identifier counter. Each `files().list(q=...)` is a `Query` whose answer is
the matching rows in table order (`Select`). The local disk is a map from path to
bytes (`LocalFs.Disk`), and the token file is a single cell (`Auth.TokenStore`).
The OAuth flow, `refresh`, `os.path.abspath` and the line the user types at the
numeric prompt are all inputs to the model.

Files and modules:

- `wrappers.dfy`: the `Option` type.
- `pyint.dfy`: Python's `int(text)` and `str(n)`.
- `remote_store.dfy`: the Drive table, its queries and its create, get-media and
  delete calls.
- `local_fs.dfy`: local files, `basename`, `isabs`.
- `storage.dfy`: the operations.
- `auth.dfy`: the `Authenticator`.
- `googd.dfy`: `main`.

Behaviour of the code worth noting, which the model follows:

- A loaded credential that is present, not expired and not valid makes the code
  raise `DefaultCredentialsError` (`functions/auth.py:30`). The same `try` catches
  that error at line 32, so the outcome is a new OAuth flow, not an authentication
  error (`Auth.Classify`).
- Errors raised by `refresh` are not caught, so a failed refresh escapes
  `authenticate` instead of falling back to a new flow (`Failed(RefreshError)`).
- The `Authenticator` keeps `self.credentials` between calls. If the token file is
  absent and a credential is already held, that credential is returned without a
  flow or a save (`Classify(Missing, Some(c)) == Reuse(c)`). A fresh
  `Authenticator`, as `main` builds it, holds none, so there a missing file always
  leads to the flow.
- `authenticate` either returns a credential object or raises. The early exit in
  `main` for a falsy credential (`googD.py:14-16`) therefore never fires in a full run:
  `GoogD.RunCli` proves `exit != AuthenticationFailed`.

## Model

| member | source | states |
|---|---|---|
| `PyInt.ParseInt` | functions/storage_operations.py:44 | `int(input)` as Python reads it. The definition strips surrounding white space (space and `\t` to `\r` only), allows an optional sign, and lets single underscores separate digits. The contract states: text containing no digit is never a number (it raises `ValueError`); an accepted text is, after stripping and dropping the sign, a well-formed digit string of at most 4300 digits, leading zeros included; a negative result comes from a leading `-`. |
| `PyInt.SeparatorNotStripped` | functions/storage_operations.py:44-52 | `int("\x1c1")` raises `ValueError`: the information separators that `str.isspace` accepts are not stripped by `int()` |
| `PyInt.ShowNat` | functions/storage_operations.py:41 | the menu label `str(idx + 1)` is a well-formed digit string, with no leading zero unless it is `0` |
| `PyInt.ParseShowNat` | functions/storage_operations.py:41-44 | reading back a printed label with `int()` gives the number printed when the label has at most 4300 digits, and raises `ValueError` when it has more |
| `RemoteStore.Matches` | functions/storage_operations.py:20 | the four search filters (folder by name in the root, line 20; root children, line 31; name anywhere, line 121; name in the root, line 186). Every filter except the download's name search admits only root objects, and the folder search admits only folders. |
| `RemoteStore.Select` | functions/storage_operations.py:21-22 | a listing holds exactly the table's objects that match the query, and it is never longer than the table |
| `RemoteStore.FirstIndex` | functions/storage_operations.py:27 | the index of the earliest matching row; no row before it matches |
| `RemoteStore.SelectHead` | functions/storage_operations.py:24-27 | a listing is empty exactly when no row matches, and its head (`items[0]`) is the earliest matching row |
| `RemoteStore.FirstMatch` | functions/storage_operations.py:24-27 | `items[0]` or `None`: `None` exactly when nothing matches; otherwise a matching row with no matching row before it |
| `RemoteStore.FirstMatchAppend` | functions/storage_operations.py:87-100 | appending newly created rows never changes an existing first match, so a later create cannot shadow an earlier object |
| `RemoteStore.Without` | functions/storage_operations.py:196 | after `delete(fileId=id)`, the table holds exactly the rows whose identifier is not `id` |
| `RemoteStore.WithoutKeepsUnique` | functions/storage_operations.py:196 | deletion keeps identifiers unique |
| `RemoteStore.WithoutDropsOne` | functions/storage_operations.py:194-196 | when identifiers are unique, deleting row i's identifier removes that row only, and the other rows keep their order |
| `RemoteStore.WithoutNone` | functions/storage_operations.py:196 | deleting an identifier that no row carries leaves the table unchanged |
| `RemoteStore.Lookup` | functions/storage_operations.py:133 | `get_media(fileId=id)` addresses a row with that identifier, and finds one exactly when such a row exists |
| `RemoteStore.LookupFinds` | functions/storage_operations.py:129-133 | when identifiers are unique, the identifier taken from a listed row leads back to that same row |
| `RemoteStore.Drive.List` | functions/storage_operations.py:21 | a search returns only matching objects of the Drive, and it changes nothing |
| `RemoteStore.Drive.Create` | functions/storage_operations.py:87-88 | a create appends one object with a fresh identifier, unused by any existing row. All other rows are untouched and the table stays valid. |
| `RemoteStore.Drive.GetMedia` | functions/storage_operations.py:133 | returns the bytes of a non-folder object that has the given identifier, or a refusal |
| `RemoteStore.Drive.Delete` | functions/storage_operations.py:196 | removes the rows with the identifier and keeps the table valid |
| `RemoteStore.Drive.constructor` | functions/storage_operations.py:9-11 | the service starts from a table with unique identifiers below the counter |
| `LocalFs.IsAbs` | functions/storage_operations.py:63 | `os.path.isabs` on POSIX: a path is absolute when it begins with `/` |
| `LocalFs.Join` | functions/storage_operations.py:134 | the local path `f"{destination}/{name}"` the download writes |
| `LocalFs.BasenameJoin` | functions/storage_operations.py:73-134 | a Drive name without `/`, joined under the destination folder, is the basename of the written path, so uploading the downloaded file keeps its name |
| `LocalFs.Basename` | functions/storage_operations.py:73 | `os.path.basename`: a suffix of the path that contains no `/`. When it is shorter than the path, a `/` precedes it. |
| `LocalFs.Disk.Exists` | functions/storage_operations.py:68 | `os.path.exists` is true exactly for the paths the disk holds |
| `LocalFs.Disk.Read` | functions/storage_operations.py:97 | the upload reads the file's whole content |
| `LocalFs.Disk.Write` | functions/storage_operations.py:134 | `open(path, 'wb')` replaces that one path's content; every other path is unchanged |
| `LocalFs.Disk.constructor` | functions/storage_operations.py:134 | the local disk starts with the given files |
| `Storage.FolderIdByName` | functions/storage_operations.py:19-27 | `None` exactly when no root folder has that exact name; otherwise the id of the first such root folder |
| `Storage.ChooseFile` | functions/storage_operations.py:34-52 | an empty listing gives `None`. A result is always `items[k-1]` for some `k` with 1 ≤ k ≤ n that `int()` read from the input. Otherwise the input is not a number or is out of range. There is no retry. |
| `Storage.ChooseByLabel` | functions/storage_operations.py:39-49 | typing the label printed beside the k-th item selects the k-th item, for every label `int()` can read back (at most 4300 digits) |
| `Storage.ChooseBeyondLast` | functions/storage_operations.py:45-47 | typing a number greater than the number of items selects nothing |
| `Storage.ListAndChooseFile` | functions/storage_operations.py:29-52 | the choice is taken from the root listing, so a chosen item is a root object of the Drive; the Drive is unchanged |
| `Storage.ListLines` | functions/storage_operations.py:166-170 | one line per item, in order, carrying the item's name and whether it is a folder |
| `Storage.ListRoot` | functions/storage_operations.py:152-170 | one line per root object, with its name and whether it is a folder, in listing order. An empty root gives no lines, and the Drive is unchanged. |
| `Storage.AfterUpload` | functions/storage_operations.py:76-100 | Existing rows stay untouched. A folder is created only when a folder name is given and no root folder of that name exists; it is created in the root, and at most one is created. The last row is the file: its name, its content, and a parent only when a folder name was given. That parent is the found folder or the new one. |
| `Storage.SourcePath` | functions/storage_operations.py:63-65 | an absolute source is read as given, and only a relative one is replaced by `os.path.abspath(source)`. The path read is absolute whenever `abspath` returns an absolute path. |
| `Storage.PlaceFolder` | functions/storage_operations.py:76-89 | Existing rows are kept. A parent exists exactly when a truthy folder name is given. One root folder is created exactly when no root folder of that name exists, and it becomes the parent; otherwise the first found folder is the parent. |
| `Storage.UploadResult` | functions/storage_operations.py:61-100 | if the resolved source path does not exist, the outcome says so and the table is unchanged. When it exists, the upload always happens: one file named `basename(path)` with that path's bytes is appended after any folder creation. |
| `Storage.Upload` | functions/storage_operations.py:61-102 | the upload method's outcome and new table are those of `UploadResult`; the identifier counter advances by the number of objects created |
| `Storage.UploadedIntoResolvedFolder` | functions/storage_operations.py:76-94 | after an upload into a named folder, resolving that name finds exactly the folder that now holds the file |
| `Storage.SecondUploadReusesFolder` | functions/storage_operations.py:77-89 | a second upload into the same folder name creates no second folder and lands in the same folder |
| `Storage.DownloadResult` | functions/storage_operations.py:119-140 | A name with no object anywhere in the Drive means no fetch and no write. Otherwise only `destination/name` is written. It gets the bytes of an object with that exact name, or is left empty when that object is a folder. |
| `Storage.DownloadFetchesFirstNamed` | functions/storage_operations.py:121-134 | the object fetched is the first object of that name anywhere in the Drive, including objects outside the root. If it is a file, its bytes are written to `destination/name`; if it is a folder, even one listed before a same-named file, its media is refused and `destination/name` is left empty. |
| `Storage.DownloadByName` | functions/storage_operations.py:119-140 | the method's outcome and new local files are those of `DownloadResult` |
| `Storage.DownloadOfChoice` | functions/storage_operations.py:142-145 | once an item is chosen, the interactive download is the download by that item's name |
| `Storage.InteractiveDownloadResult` | functions/storage_operations.py:142-145 | without a valid choice nothing is fetched or written; with one, the download is by the chosen item's name |
| `Storage.DownloadInteractive` | functions/storage_operations.py:142-145 | the method's outcome and new local files are those of `InteractiveDownloadResult` |
| `Storage.InteractiveDownloadMayFetchAnotherObject` | functions/storage_operations.py:142-145 | choosing a root file can fetch a different object with the same name, one that sits inside a folder |
| `Storage.UploadThenDownload` | functions/storage_operations.py:61-140 | upload a file, then download it by its base name where no other object has that name: the bytes written locally are the bytes uploaded |
| `Storage.RemoveResult` | functions/storage_operations.py:184-197 | Only the root is searched. The outcome is always "not found" or "removed", and "not found" exactly when no root object has the name. With no match, nothing is deleted. Otherwise exactly one object is deleted: the first exact-name match in the root. Every other object is kept, in order. |
| `Storage.RemoveByName` | functions/storage_operations.py:184-197 | the method's outcome and new table are those of `RemoveResult` |
| `Storage.InteractiveRemoveResult` | functions/storage_operations.py:199-204 | Nothing is deleted exactly when there is no valid choice. With one, the outcome carries the chosen item's identifier and name, and the new table is the old one with exactly that chosen root row cut out. |
| `Storage.RemoveInteractive` | functions/storage_operations.py:199-204 | the method's outcome and new table are those of `InteractiveRemoveResult` |
| `Storage.ListThreeRootItems` | functions/storage_operations.py:31 | a root listing of three root objects lists them in table order |
| `Storage.InteractiveRemoveSecondOfThree` | functions/storage_operations.py:199-204 | with three root items, typing "2" deletes the second item and only it |
| `Storage.InteractiveRemoveOutOfRange` | functions/storage_operations.py:45-47 | with three root items, typing "5" deletes nothing |
| `Storage.InteractiveRemoveNotANumber` | functions/storage_operations.py:43-52 | typing "abc" deletes nothing, whatever the Drive holds |
| `Storage.ShadowedTableRoot` | functions/storage_operations.py:31 | in the example table, the root listing holds only the root file `r` |
| `Storage.ShadowedTableChoice` | functions/storage_operations.py:43-49 | in the example table, typing "1" chooses the root file `r` |
| `Storage.ShadowedTableDownload` | functions/storage_operations.py:121-134 | in the example table, downloading `r` by name fetches identifier 1, the `r` inside folder `d` |
| `Storage.ExecResult` | functions/storage_operations.py:61-204 | `execute` of each variant as one result: the report's kind matches the operation. Only an upload or a removal changes the table, only an upload advances the identifier counter (by the rows it appends after the untouched old rows), and only a download writes local files. The listing reports every root item's name and folder flag in listing order. |
| `Storage.Execute` | functions/storage_operations.py:111-117 | the method's report, new table, counter and local files are exactly `ExecResult` of the operation on the old state, and the table stays valid |
| `Auth.Classify` | functions/auth.py:20-37 | Refresh happens exactly when the loaded credential is expired and has a refresh token. Reuse happens exactly when the loaded credential is otherwise valid, or when the file is absent and a credential is already held. A corrupt file or a pickled `None` means re-authentication. |
| `Auth.TokenStore.Load` | functions/auth.py:22-23 | `pickle.load` raises `PickleError` exactly for a corrupt file; otherwise it yields the stored value |
| `Auth.TokenStore.Save` | functions/auth.py:51-54 | the file is overwritten with the credential and one more write is counted |
| `Auth.TokenStore.constructor` | functions/auth.py:10 | the token file cell starts with the given content and no writes |
| `Auth.Authenticator.constructor` | functions/auth.py:13-14 | a new authenticator holds no credential and has run no flow |
| `Auth.Authenticator.SaveCredentials` | functions/auth.py:51-54 | the token file now holds the current credential |
| `Auth.Authenticator.PerformOauthFlow` | functions/auth.py:43-49 | the flow runs once and its result is passed through |
| `Auth.Authenticator.Authenticate` | functions/auth.py:16-41 | Reuse returns the credential with no flow and no save. Refresh returns the refreshed credential, saved once, with no flow, and a refresh error escapes. Re-authentication runs the flow exactly once and saves and returns its result unchecked. The result is always the final `self.credentials`, and the file changes only by one save that precedes a successful return. |
| `GoogD.Choose` | googD.py:19-38 | No operation exactly when no action flag is set. Otherwise the operation is the one the first set flag names, in the order list, upload, download, delete. Upload carries `--upload` and `--folder`; download and delete carry `--file` only when it is non-empty. |
| `GoogD.Dispatch` | googD.py:14-38 | A falsy credential means no operation. Otherwise the first set flag, in the order list, upload, download, delete, chooses the variant. No flag is `ValueError`. Upload carries `--upload` and `--folder`; download and delete carry `--file` only when it is non-empty. |
| `GoogD.RunCli` | googD.py:5-41 | Authentication runs first, on the token file as it was before the run. The run ends in an authentication error exactly when that course is a refresh that raises or an OAuth flow that raises. The error says which, and the token file is then unchanged. Otherwise the token file is kept, or holds the refreshed or newly granted credential. The early stop for a falsy credential never happens. An authentication error or an invalid command changes neither the Drive nor the local files. Otherwise exactly one operation runs, the one `Choose` picks from the flags: the report, the new Drive table, counter and local files are `ExecResult` of that operation on the state before the run. |

## Left out

- Constructing the Google client (`build`) and all HTTP transport are left out. The
  service is the in-memory `Drive` table. Listing order is table order, with new
  objects appended; Drive's own default ordering is not modelled.
- The query strings are left out: their quote escaping, single-page truncation and
  the absence of a `trashed = false` filter. Queries are predicates, and the model
  has no trash.
- The resumable upload protocol and the chunked download loop are left out. A
  download copies the whole content in one step, so the floating-point progress
  percentage is not modelled.
- `MediaRefused`: for a folder, `next_chunk` raises `HttpError`
  (`functions/storage_operations.py:138`). The local file has already been opened for
  writing at that point, so it is left empty. In the code that error is not caught:
  it escapes `execute` and `main`. The model does not model the exception. It ends
  the download with the `MediaRefused` outcome, and `GoogD.RunCli` reports the run as
  a completed download with that outcome. Other non-binary Drive types are not
  distinguished.
- `input()` raising `EOFError` or `KeyboardInterrupt` at the numeric prompt is not
  modelled. Only `ValueError` is caught there (`functions/storage_operations.py:50`),
  so in the code those errors escape. The model's typed line is always a string.
- `Storage.ListRoot`: `ListOperation.execute` prints each item's name, `mimeType` and
  `modifiedTime` (`functions/storage_operations.py:166-170`). The model keeps the name
  and, in place of the MIME type, only whether the item is a folder. It has no
  modification time, because the Drive table holds no clock.
- Deleting a folder removes only its row. Drive's deletion of the folder's
  descendants is not modelled.
- Pickle serialization and the browser-based OAuth 2.0 authorization-code flow
  (section 4.1 of RFC 6749) are foreign libraries. The flow's result and the state
  `refresh` leaves the credential in are inputs. Only `PickleError` is modelled as a
  load failure. Other exceptions from `pickle.load`, such as `EOFError` on an empty
  file, are not modelled.
- `os.path.abspath` depends on the working directory, so its result is an input.
  `os.path.exists` is membership in the local disk map. Directories, missing
  destination folders and permission errors are not modelled.
- `PyInt.ParseInt`: only ASCII text is modelled. Python also accepts other Unicode
  white space and decimal digits. The 4300-digit limit is the default of Python
  3.11 and later. A limit changed through `sys.set_int_max_str_digits` or
  `PYTHONINTMAXSTRDIGITS` is not modelled, and neither are older versions without
  a limit.
- `UploadOperation.execute` reassigns `self.source` to the absolute path
  (`functions/storage_operations.py:65`). Its later reads at lines 68, 69, 73, 97 and
  102 all see that path. The model holds it in a local variable that all of those
  reads use. The field itself cannot be observed after `execute` returns, so it is
  not part of the state.
- `functions/cli.py` is not modelled: its output is the `GoogD.Args` record. All
  printed messages are left out. Files matching `test_*.py` and `tests/*.py` are not
  part of this model.
- Drive identifiers are opaque non-empty strings, so they are always truthy. They are
  modelled as natural numbers from a counter, never tested for truthiness.

=== FILE: auth.dfy ===
/**
 * The credential lifecycle of the client: load the pickled credential from the
 * token file, then reuse it, refresh and save it, or run the OAuth flow and save
 * its result. `refresh` and the OAuth flow are oracles handed in as values.
 */
module Auth {
  import opened Wrappers

  /** The attributes of a google-auth credential that the lifecycle inspects. */
  datatype Credential = Credential(expired: bool, valid: bool, hasRefreshToken: bool)

  /**
   * The token file: not there, not loadable by pickle (`PickleError`), or
   * holding a pickled value, which may be `None`.
   */
  datatype TokenFile = Missing | Corrupt | Holds(stored: Option<Credential>)

  datatype LoadResult = Loaded(value: Option<Credential>) | PickleError

  datatype AuthError = RefreshError | FlowError

  /** What `authenticate` returns, or the exception that escapes it. */
  datatype AuthResult = Authenticated(cred: Credential) | Failed(error: AuthError)

  predicate Refreshable(c: Credential) {
    c.expired && c.hasRefreshToken
  }

  /** Which of the three courses `authenticate` takes. */
  datatype Course = Reuse(cred: Credential) | Refresh(cred: Credential) | Reauthenticate

  /**
   * The course `authenticate` takes, given the token file and the credential
   * the authenticator already holds. A loaded credential that is neither
   * refreshable nor valid raises `DefaultCredentialsError`, which the same
   * `try` catches: the outcome is re-authentication, not an error.
   */
  function Classify(file: TokenFile, prior: Option<Credential>): (c: Course)
    ensures c.Refresh? <==> file.Holds? && file.stored.Some? && Refreshable(file.stored.value)
    ensures c.Refresh? ==> c.cred == file.stored.value
    ensures c.Reuse? <==> (file.Missing? && prior.Some?) ||
                          (file.Holds? && file.stored.Some? && !Refreshable(file.stored.value) &&
                           file.stored.value.valid)
    ensures c.Reuse? ==> c.cred == (if file.Missing? then prior.value else file.stored.value)
    ensures file.Corrupt? || file == Holds(None) ==> c.Reauthenticate?
  {
    match file
    case Missing => if prior.Some? then Reuse(prior.value) else Reauthenticate
    case Corrupt => Reauthenticate
    case Holds(None) => Reauthenticate
    case Holds(Some(cred)) =>
      if Refreshable(cred) then Refresh(cred)
      else if cred.valid then Reuse(cred)
      else Reauthenticate
  }

  /** The cell holding `token.json` on the local disk. */
  class TokenStore {
    var file: TokenFile
    var writes: nat  // number of `pickle.dump` calls

    constructor (file: TokenFile)
      ensures this.file == file && writes == 0
    {
      this.file := file;
      writes := 0;
    }

    /** `pickle.load` of the existing file. */
    method Load() returns (r: LoadResult)
      requires !file.Missing?
      ensures file.Corrupt? <==> r.PickleError?
      ensures file.Holds? ==> r == Loaded(file.stored)
    {
      if file.Corrupt? {
        r := PickleError;
      } else {
        r := Loaded(file.stored);
      }
    }

    /** `pickle.dump`: the file is overwritten with `c`. */
    method Save(c: Option<Credential>)
      modifies this
      ensures file == Holds(c) && writes == old(writes) + 1
    {
      file := Holds(c);
      writes := writes + 1;
    }
  }

  class Authenticator {
    var credentials: Option<Credential>
    var flowRuns: nat  // number of `perform_oauth_flow` calls
    const store: TokenStore

    constructor (store: TokenStore)
      ensures credentials == None && flowRuns == 0 && this.store == store
    {
      credentials := None;
      flowRuns := 0;
      this.store := store;
    }

    /** `save_credentials`. */
    method SaveCredentials()
      modifies store
      ensures store.file == Holds(credentials) && store.writes == old(store.writes) + 1
    {
      store.Save(credentials);
    }

    /** `perform_oauth_flow`: `flow` is what the browser flow yields, `None` when it raises. */
    method PerformOauthFlow(flow: Option<Credential>) returns (c: Option<Credential>)
      modifies this`flowRuns
      ensures c == flow && flowRuns == old(flowRuns) + 1
    {
      flowRuns := flowRuns + 1;
      c := flow;
    }

    /**
     * `authenticate`. `refreshed` is the credential as `refresh(Request())`
     * leaves it, `None` when refresh raises; `flow` is what the OAuth flow
     * yields, `None` when it raises. Neither exception is caught.
     */
    method Authenticate(refreshed: Option<Credential>, flow: Option<Credential>) returns (r: AuthResult)
      modifies this, store
      ensures r.Authenticated? ==> credentials == Some(r.cred)
      ensures store.file != old(store.file) || store.writes != old(store.writes) ==>
                store.writes == old(store.writes) + 1 && store.file == Holds(credentials) && r.Authenticated?
      ensures match Classify(old(store.file), old(credentials))
              case Reuse(c) =>
                r == Authenticated(c) && flowRuns == old(flowRuns) &&
                store.file == old(store.file) && store.writes == old(store.writes)
              case Refresh(c) =>
                flowRuns == old(flowRuns) &&
                if refreshed.Some? then
                  r == Authenticated(refreshed.value) &&
                  store.file == Holds(refreshed) && store.writes == old(store.writes) + 1
                else
                  r == Failed(RefreshError) && credentials == Some(c) &&
                  store.file == old(store.file) && store.writes == old(store.writes)
              case Reauthenticate =>
                flowRuns == old(flowRuns) + 1 &&
                if flow.Some? then
                  r == Authenticated(flow.value) &&
                  store.file == Holds(flow) && store.writes == old(store.writes) + 1
                else
                  r == Failed(FlowError) && credentials == None &&
                  store.file == old(store.file) && store.writes == old(store.writes)
    {
      if !store.file.Missing? {
        var loaded := store.Load();
        if loaded.PickleError? {
          credentials := None;
        } else {
          credentials := loaded.value;
          if credentials.Some? && Refreshable(credentials.value) {
            if refreshed.None? {
              return Failed(RefreshError);
            }
            credentials := refreshed;
            SaveCredentials();
          } else if credentials.None? || !credentials.value.valid {
            credentials := None;
          }
        }
      }
      if credentials.None? {
        var granted := PerformOauthFlow(flow);
        if granted.None? {
          return Failed(FlowError);
        }
        credentials := granted;
        SaveCredentials();
      }
      r := Authenticated(credentials.value);
    }
  }
}

=== FILE: byte_strings.dfy ===
/** Raw file content, shared by the local disk and the Drive service. */
module ByteStrings {
  type Bytes = seq<bv8>
}

=== FILE: googd.dfy ===
/**
 * The entry point: authenticate, choose one operation from the command-line
 * flags in a fixed priority order, and execute it.
 */
module GoogD {
  import opened Wrappers
  import opened Auth
  import opened RemoteStore
  import opened LocalFs
  import opened Storage

  /** The parsed flags: `--list`, `--upload PATH`, `--download`, `--delete`, `--folder NAME`, `--file NAME`. */
  datatype Args = Args(list: bool, upload: Option<string>, download: bool, delete: bool,
                       folder: Option<string>, file: Option<string>)

  datatype Action = ListAction | UploadAction | DownloadAction | DeleteAction

  /** The action flags that are set, in the order `main` tests them. */
  function Requested(args: Args): seq<Action> {
    (if args.list then [ListAction] else []) +
    (if Truthy(args.upload) then [UploadAction] else []) +
    (if args.download then [DownloadAction] else []) +
    (if args.delete then [DeleteAction] else [])
  }

  function ActionOf(op: Operation): Action {
    match op
    case ListFiles => ListAction
    case Upload(_, _) => UploadAction
    case Download(_, _) => DownloadAction
    case Remove(_) => DeleteAction
  }

  /**
   * The operation the flags name: the first action flag set, in the order `main`
   * tests them, with its payload; `None` when no action flag is set.
   */
  function Choose(args: Args): (r: Option<Operation>)
    ensures r.None? <==> Requested(args) == []
    ensures r.Some? ==> ActionOf(r.value) == Requested(args)[0]
    ensures r.Some? && r.value.Upload? ==> r.value == Upload(args.upload.value, args.folder)
    ensures r.Some? && r.value.Download? ==>
              r.value == Download(if Truthy(args.file) then args.file else None, ".")
    ensures r.Some? && r.value.Remove? ==>
              r.value == Remove(if Truthy(args.file) then args.file else None)
  {
    if args.list then Some(ListFiles)
    else if Truthy(args.upload) then Some(Upload(args.upload.value, args.folder))
    else if args.download then
      if Truthy(args.file) then Some(Download(args.file, ".")) else Some(Download(None, "."))
    else if args.delete then
      if Truthy(args.file) then Some(Remove(args.file)) else Some(Remove(None))
    else None
  }

  /** What `main` does after `authenticate` returned. */
  datatype Plan = NotAuthenticated | Run(op: Operation) | InvalidCommand

  /**
   * The if/elif chain of `main`: stop when the credential is falsy, otherwise the
   * first action flag set decides the operation, and no flag at all is
   * `ValueError("Invalid command")`.
   */
  function Dispatch(credentials: Option<Credential>, args: Args): (p: Plan)
    ensures p.NotAuthenticated? <==> credentials.None?
    ensures credentials.Some? ==> (p.InvalidCommand? <==> Requested(args) == [])
    ensures p.Run? ==> Requested(args) != [] && ActionOf(p.op) == Requested(args)[0]
    ensures p.Run? && p.op.Upload? ==> p.op == Upload(args.upload.value, args.folder)
    ensures p.Run? && p.op.Download? ==>
              p.op == Download(if Truthy(args.file) then args.file else None, ".")
    ensures p.Run? && p.op.Remove? ==>
              p.op == Remove(if Truthy(args.file) then args.file else None)
  {
    if credentials.None? then NotAuthenticated
    else
      match Choose(args)
      case None => InvalidCommand
      case Some(op) => Run(op)
  }

  /** How a run of the program ends. */
  datatype Exit =
    | AuthRaised(error: AuthError)
    | AuthenticationFailed
    | InvalidCommandError
    | Completed(report: Report)

  /**
   * `main`, with the token file, the Drive and the local disk as state, and the
   * oracles (refresh, OAuth flow, `os.path.abspath`, the typed choice) as inputs.
   * Exactly one operation runs, the one the flags choose, and only after
   * authentication succeeded.
   */
  method RunCli(args: Args, store: TokenStore, drive: Drive, disk: Disk, refreshed: Option<Credential>,
                flow: Option<Credential>, resolved: string, raw: string) returns (exit: Exit)
    requires drive.Valid()
    modifies store, drive, disk
    ensures drive.Valid()
    ensures exit != AuthenticationFailed
    ensures var course := Classify(old(store.file), None);
            exit.AuthRaised? <==> (course.Refresh? && refreshed.None?) || (course.Reauthenticate? && flow.None?)
    ensures exit.AuthRaised? ==>
              store.file == old(store.file) &&
              exit.error == (if Classify(old(store.file), None).Refresh? then RefreshError else FlowError)
    ensures !exit.AuthRaised? ==>
              store.file == match Classify(old(store.file), None)
                            case Reuse(_) => old(store.file)
                            case Refresh(_) => Holds(refreshed)
                            case Reauthenticate => Holds(flow)
    ensures exit.AuthRaised? || exit.InvalidCommandError? ==>
              drive.objects == old(drive.objects) && drive.nextId == old(drive.nextId) &&
              disk.files == old(disk.files)
    ensures !exit.AuthRaised? ==> (exit.InvalidCommandError? <==> Requested(args) == [])
    ensures exit.Completed? ==> Requested(args) != [] && ReportAction(exit.report) == Requested(args)[0]
    ensures exit.Completed? ==>
              Choose(args).Some? &&
              (exit.report, drive.objects, drive.nextId, disk.files) ==
              ExecResult(Choose(args).value, old(drive.objects), old(drive.nextId), old(disk.files), resolved, raw)
  {
    var auth := new Authenticator(store);
    var r := auth.Authenticate(refreshed, flow);
    if r.Failed? {
      return AuthRaised(r.error);
    }
    var plan := Dispatch(Some(r.cred), args);
    match plan
    case NotAuthenticated =>
      exit := AuthenticationFailed;
    case InvalidCommand =>
      exit := InvalidCommandError;
    case Run(op) =>
      var report := Execute(op, drive, disk, resolved, raw);
      exit := Completed(report);
  }

  function ReportAction(report: Report): Action {
    match report
    case Listed(_) => ListAction
    case UploadReport(_) => UploadAction
    case DownloadReport(_) => DownloadAction
    case RemoveReport(_) => DeleteAction
  }
}

=== FILE: local_fs.dfy ===
/**
 * The local file system the operations read from and write to: a table from
 * path to file content, plus the POSIX path helpers the operations use.
 */
module LocalFs {
  import opened ByteStrings

  /** `os.path.isabs` on POSIX. */
  predicate IsAbs(path: string) {
    |path| > 0 && path[0] == '/'
  }

  /** `os.path.basename` on POSIX: what follows the last `/`. */
  function Basename(path: string): (b: string)
    ensures |b| <= |path| && b == path[|path| - |b|..]
    ensures '/' !in b
    ensures |b| < |path| ==> path[|path| - |b| - 1] == '/'
  {
    if path == [] || path[|path| - 1] == '/' then []
    else Basename(path[..|path| - 1]) + [path[|path| - 1]]
  }

  /** The path `f"{folder}/{name}"`. */
  function Join(folder: string, name: string): string {
    folder + "/" + name
  }

  /** A name without `/`, joined under a folder, is the basename of the joined path. */
  lemma BasenameJoin(folder: string, name: string)
    requires '/' !in name
    ensures Basename(Join(folder, name)) == name
  {
    var p := Join(folder, name);
    assert p[|folder|] == '/';
    assert p[|p| - |name|..] == name;
  }

  class Disk {
    var files: map<string, Bytes>

    constructor (files: map<string, Bytes>)
      ensures this.files == files
    {
      this.files := files;
    }

    /** `os.path.exists`. */
    method Exists(path: string) returns (b: bool)
      ensures b <==> path in files
    {
      b := path in files;
    }

    /** Reading the whole file, as the upload does. */
    method Read(path: string) returns (bytes: Bytes)
      requires path in files
      ensures bytes == files[path]
    {
      bytes := files[path];
    }

    /** `open(path, 'wb')` followed by writing `bytes`: the file is created or replaced. */
    method Write(path: string, bytes: Bytes)
      modifies this
      ensures files == old(files)[path := bytes]
    {
      files := files[path := bytes];
    }
  }
}

=== FILE: pyint.dfy ===
/**
 * Python's `int(text)` on a `str` in base 10, as used to read the user's numeric
 * choice, and `str(n)` on a natural number, as used to print the menu labels.
 * Only the ASCII part of Python's grammar is modelled.
 */
module PyInt {
  import opened Wrappers

  /**
   * The ASCII white space `int()` strips from both ends of an ASCII text: space and
   * `\t` to `\r`. The separators `\x1c` to `\x1f`, which `str.isspace` accepts,
   * are not stripped.
   */
  predicate IsSpace(c: char) {
    c == ' ' || ('\t' <= c <= '\r')
  }

  /**
   * The default of `sys.get_int_max_str_digits()` (Python 3.11 and later): `int()`
   * refuses a decimal text with more digits than this, leading zeros included.
   */
  const MaxStrDigits: nat := 4300

  predicate IsDigit(c: char) {
    '0' <= c <= '9'
  }

  function DigitValue(c: char): (d: nat)
    requires IsDigit(c)
    ensures d < 10
  {
    c as int - '0' as int
  }

  function Digit(d: nat): (c: char)
    requires d < 10
    ensures IsDigit(c) && DigitValue(c) == d
  {
    ('0' as int + d) as char
  }

  /** Drops leading white space. */
  function StripLeft(s: string): (r: string)
    ensures |r| <= |s| && r == s[|s| - |r|..]
    ensures r == [] || !IsSpace(r[0])
    ensures forall i :: 0 <= i < |s| - |r| ==> IsSpace(s[i])
  {
    if s != [] && IsSpace(s[0]) then StripLeft(s[1..]) else s
  }

  /** Drops trailing white space. */
  function StripRight(s: string): (r: string)
    ensures |r| <= |s| && r == s[..|r|]
    ensures r == [] || !IsSpace(r[|r| - 1])
    ensures forall i :: |r| <= i < |s| ==> IsSpace(s[i])
  {
    if s != [] && IsSpace(s[|s| - 1]) then StripRight(s[..|s| - 1]) else s
  }

  /** `str.strip()` restricted to ASCII white space. */
  function Strip(s: string): string {
    StripRight(StripLeft(s))
  }

  /**
   * A base-10 digit string as `int()` accepts it: decimal digits, where a single
   * underscore may separate two digits.
   */
  predicate WellFormedDigits(s: string) {
    |s| > 0 && IsDigit(s[0]) && IsDigit(s[|s| - 1]) &&
    (forall i :: 0 <= i < |s| ==> IsDigit(s[i]) || s[i] == '_') &&
    (forall i :: 0 <= i < |s| - 1 ==> s[i] == '_' ==> s[i + 1] != '_')
  }

  /** The number the digits of `s` spell, underscores ignored. */
  function DigitsValue(s: string): nat
    requires forall i :: 0 <= i < |s| ==> IsDigit(s[i]) || s[i] == '_'
  {
    if s == [] then 0
    else if IsDigit(s[|s| - 1]) then DigitsValue(s[..|s| - 1]) * 10 + DigitValue(s[|s| - 1])
    else DigitsValue(s[..|s| - 1])
  }

  /** The number of decimal digits in `s`. */
  function DigitCount(s: string): (c: nat)
    ensures c <= |s|
    ensures (forall i :: 0 <= i < |s| ==> IsDigit(s[i])) ==> c == |s|
  {
    if s == [] then 0
    else DigitCount(s[..|s| - 1]) + (if IsDigit(s[|s| - 1]) then 1 else 0)
  }

  /** The text after an optional leading sign. */
  function Unsigned(t: string): (u: string)
    ensures |u| <= |t| && u == t[|t| - |u|..]
  {
    if t != [] && (t[0] == '-' || t[0] == '+') then t[1..] else t
  }

  /**
   * `int(s)`: `Some(n)` for the integer the text denotes, `None` where Python
   * raises `ValueError`. Text without a single digit is never a number, and
   * neither is a numeral of more than `MaxStrDigits` digits.
   */
  function ParseInt(s: string): (r: Option<int>)
    ensures (forall i :: 0 <= i < |s| ==> !IsDigit(s[i])) ==> r.None?
    ensures r.Some? ==> Strip(s) != [] && WellFormedDigits(Unsigned(Strip(s))) &&
                        (r.value < 0 ==> Strip(s)[0] == '-')
    ensures r.Some? ==> DigitCount(Unsigned(Strip(s))) <= MaxStrDigits
  {
    var t := Strip(s);
    var body := Unsigned(t);
    if t == [] || !WellFormedDigits(body) || DigitCount(body) > MaxStrDigits then None
    else
      var k := |s| - |StripLeft(s)| + |t| - |body|;
      assert body[0] == s[k];
      var n: int := DigitsValue(body);
      Some(if t[0] == '-' then -n else n)
  }

  /** The information separator `\x1c` is not white space to `int()`: `int("\x1c1")` raises. */
  lemma SeparatorNotStripped(s: string)
    requires s == "\U{1C}1"
    ensures ParseInt(s).None?
  {
    assert |s| == 2 && s[0] == '\U{1C}' && s[1] == '1';
    assert !IsSpace(s[0]) && !IsSpace(s[1]);
    assert StripLeft(s) == s;
    assert StripRight(s) == s;
    assert Unsigned(Strip(s)) == s;
    assert !IsDigit(s[0]) && s[0] != '_';
  }

  /** `str(n)`: the decimal numeral of `n`, without leading zeros. */
  function ShowNat(n: nat): (s: string)
    ensures WellFormedDigits(s)
    ensures forall i :: 0 <= i < |s| ==> IsDigit(s[i])
    ensures s[0] == '0' ==> n == 0
  {
    if n < 10 then [Digit(n)] else ShowNat(n / 10) + [Digit(n % 10)]
  }

  lemma {:induction false} DigitsValueShowNat(n: nat)
    ensures DigitsValue(ShowNat(n)) == n
  {
    var s := ShowNat(n);
    if n < 10 {
      assert s[..0] == [];
    } else {
      assert s[..|s| - 1] == ShowNat(n / 10);
      DigitsValueShowNat(n / 10);
    }
  }

  /**
   * Reading back a printed menu label gives the number printed, unless the label
   * is longer than `int()` accepts.
   */
  lemma ParseShowNat(n: nat)
    ensures ParseInt(ShowNat(n)) == if |ShowNat(n)| <= MaxStrDigits then Some(n) else None
  {
    var s := ShowNat(n);
    assert !IsSpace(s[0]) && !IsSpace(s[|s| - 1]);
    assert StripLeft(s) == s;
    assert StripRight(s) == s;
    assert Strip(s) == s;
    assert s[0] != '-' && s[0] != '+';
    assert Unsigned(s) == s;
    assert DigitCount(s) == |s|;
    DigitsValueShowNat(n);
  }
}

=== FILE: remote_store.dfy ===
/**
 * The Drive service, abstracted as an in-memory table of objects. Every
 * `files().list(q=...)` of the client is a `Query`, and its answer is the
 * ordered selection of the table's rows that the query matches.
 */
module RemoteStore {
  import opened Wrappers
  import opened ByteStrings

  /** Service-assigned identifier (opaque, never constructed by the client). */
  type Id = nat

  /** A file or folder; `parent == None` means it sits in the Drive root. */
  datatype RemoteObject = RemoteObject(id: Id, name: string, isFolder: bool, parent: Option<Id>, content: Bytes)

  /** The four search filters the client sends. */
  datatype Query =
    | FolderNamedInRoot(folderName: string)  // mimeType = folder and name = '…' and 'root' in parents
    | ChildrenOfRoot                         // 'root' in parents
    | Named(fileName: string)                // name='…'
    | NamedInRoot(rootName: string)          // name = '…' and 'root' in parents

  /** Every search except the download's is confined to the Drive root. */
  predicate Matches(q: Query, o: RemoteObject)
    ensures Matches(q, o) && !q.Named? ==> o.parent.None?
    ensures Matches(q, o) && q.FolderNamedInRoot? ==> o.isFolder
  {
    match q
    case FolderNamedInRoot(n) => o.isFolder && o.name == n && o.parent.None?
    case ChildrenOfRoot => o.parent.None?
    case Named(n) => o.name == n
    case NamedInRoot(n) => o.name == n && o.parent.None?
  }

  /** The listing the service returns for `q`: matching rows, in table order. */
  function Select(s: seq<RemoteObject>, q: Query): (r: seq<RemoteObject>)
    ensures |r| <= |s|
    ensures forall o :: o in r <==> o in s && Matches(q, o)
  {
    if s == [] then []
    else if Matches(q, s[0]) then [s[0]] + Select(s[1..], q)
    else Select(s[1..], q)
  }

  /** Index of the first row matching `q`, or `|s|` when none does. */
  function FirstIndex(s: seq<RemoteObject>, q: Query): (k: nat)
    ensures k <= |s|
    ensures k < |s| ==> Matches(q, s[k])
    ensures forall j :: 0 <= j < k ==> !Matches(q, s[j])
  {
    if s == [] then 0
    else if Matches(q, s[0]) then 0
    else 1 + FirstIndex(s[1..], q)
  }

  /** The head of a listing is the earliest matching row of the table. */
  lemma {:induction false} SelectHead(s: seq<RemoteObject>, q: Query)
    ensures Select(s, q) == [] <==> FirstIndex(s, q) == |s|
    ensures Select(s, q) != [] ==> Select(s, q)[0] == s[FirstIndex(s, q)]
  {
    if s != [] && !Matches(q, s[0]) {
      var t := s[1..];
      SelectHead(t, q);
      assert Select(s, q) == Select(t, q) && FirstIndex(s, q) == 1 + FirstIndex(t, q);
      if FirstIndex(t, q) < |t| {
        assert s[FirstIndex(s, q)] == t[FirstIndex(t, q)];
      }
    }
  }

  /** `items[0]` of a non-empty listing, `None` for an empty one. */
  function FirstMatch(s: seq<RemoteObject>, q: Query): (r: Option<RemoteObject>)
    ensures r.None? <==> forall i :: 0 <= i < |s| ==> !Matches(q, s[i])
    ensures r.Some? ==> exists k :: 0 <= k < |s| && r.value == s[k] && Matches(q, s[k]) &&
                                    forall j :: 0 <= j < k ==> !Matches(q, s[j])
  {
    SelectHead(s, q);
    var items := Select(s, q);
    if items == [] then None
    else
      var k := FirstIndex(s, q);
      assert items[0] == s[k];
      Some(items[0])
  }

  /** Rows listed before `t` keep their precedence when `t` is appended to the table. */
  lemma {:induction false} FirstMatchAppend(s: seq<RemoteObject>, t: seq<RemoteObject>, q: Query)
    ensures FirstMatch(s + t, q) == if FirstMatch(s, q).Some? then FirstMatch(s, q) else FirstMatch(t, q)
  {
    SelectHead(s + t, q);
    SelectHead(s, q);
    SelectHead(t, q);
    var k := FirstIndex(s, q);
    if k < |s| {
      assert (s + t)[k] == s[k];
      assert FirstIndex(s + t, q) == k by {
        assert forall j :: 0 <= j < k ==> (s + t)[j] == s[j];
      }
    } else {
      var m := FirstIndex(t, q);
      forall j | 0 <= j < |s| + m
        ensures !Matches(q, (s + t)[j])
      {
        if j >= |s| { assert (s + t)[j] == t[j - |s|]; }
      }
      if m < |t| {
        assert (s + t)[|s| + m] == t[m];
      }
    }
  }

  predicate UniqueIds(s: seq<RemoteObject>) {
    forall i, j :: 0 <= i < j < |s| ==> s[i].id != s[j].id
  }

  /** The table after `files().delete(fileId=id)`. */
  function Without(s: seq<RemoteObject>, id: Id): (r: seq<RemoteObject>)
    ensures |r| <= |s|
    ensures forall o :: o in r <==> o in s && o.id != id
  {
    if s == [] then []
    else if s[0].id == id then Without(s[1..], id)
    else [s[0]] + Without(s[1..], id)
  }

  lemma {:induction false} WithoutKeepsUnique(s: seq<RemoteObject>, id: Id)
    requires UniqueIds(s)
    ensures UniqueIds(Without(s, id))
  {
    if s != [] {
      assert UniqueIds(s[1..]);
      WithoutKeepsUnique(s[1..], id);
      if s[0].id != id {
        var r := Without(s, id);
        assert r == [s[0]] + Without(s[1..], id);
        forall j | 1 <= j < |r|
          ensures r[0].id != r[j].id
        {
          assert r[j] in Without(s[1..], id);
          assert r[j] in s[1..];
        }
      }
    }
  }

  /** The rows after the first of a table with unique identifiers carry other identifiers. */
  lemma UniqueTail(s: seq<RemoteObject>)
    requires UniqueIds(s) && s != []
    ensures UniqueIds(s[1..])
    ensures forall j :: 0 <= j < |s[1..]| ==> s[1..][j].id != s[0].id
  {
    forall j | 0 <= j < |s[1..]|
      ensures s[1..][j].id != s[0].id
    {
      assert s[1..][j] == s[j + 1];
    }
  }

  /**
   * With unique identifiers, deleting the identifier of row `i` removes that
   * row and nothing else, and the remaining rows keep their order.
   */
  lemma {:induction false} WithoutDropsOne(s: seq<RemoteObject>, i: nat)
    requires UniqueIds(s) && i < |s|
    ensures Without(s, s[i].id) == s[..i] + s[i + 1..]
  {
    UniqueTail(s);
    if i == 0 {
      WithoutNone(s[1..], s[0].id);
    } else {
      WithoutDropsOne(s[1..], i - 1);
      WithoutStep(s, i);
    }
  }

  /** One step of `WithoutDropsOne`: row 0 is kept and the rest is handled by the tail. */
  lemma WithoutStep(s: seq<RemoteObject>, i: nat)
    requires 0 < i < |s| && s[0].id != s[i].id
    requires Without(s[1..], s[1..][i - 1].id) == s[1..][..i - 1] + s[1..][i..]
    ensures Without(s, s[i].id) == s[..i] + s[i + 1..]
  {
    var t := s[1..];
    assert t[i - 1] == s[i];
    assert Without(s, s[i].id) == [s[0]] + Without(t, s[i].id);
    SplitAround(s, i);
  }

  /** Cutting row `i` out of `s` is cutting row `i - 1` out of its tail, behind the head. */
  lemma SplitAround(s: seq<RemoteObject>, i: nat)
    requires 0 < i < |s|
    ensures s[..i] + s[i + 1..] == [s[0]] + (s[1..][..i - 1] + s[1..][i..])
  {
    var t := s[1..];
    assert s[..i] == [s[0]] + t[..i - 1];
    assert s[i + 1..] == t[i..];
  }

  /** Deleting an identifier that no row carries changes nothing. */
  lemma {:induction false} WithoutNone(s: seq<RemoteObject>, id: Id)
    requires forall j :: 0 <= j < |s| ==> s[j].id != id
    ensures Without(s, id) == s
  {
    if s != [] {
      WithoutNone(s[1..], id);
      assert [s[0]] + s[1..] == s;
    }
  }

  /** The row `files().get(fileId=id)` addresses: the first with that identifier. */
  function Lookup(s: seq<RemoteObject>, id: Id): (r: Option<RemoteObject>)
    ensures r.None? <==> forall i :: 0 <= i < |s| ==> s[i].id != id
    ensures r.Some? ==> r.value in s && r.value.id == id
  {
    if s == [] then None
    else if s[0].id == id then Some(s[0])
    else Lookup(s[1..], id)
  }

  /** With unique identifiers, every row is found again by its identifier. */
  lemma {:induction false} LookupFinds(s: seq<RemoteObject>, i: nat)
    requires UniqueIds(s) && i < |s|
    ensures Lookup(s, s[i].id) == Some(s[i])
  {
    if i > 0 {
      assert UniqueIds(s[1..]);
      assert s[1..][i - 1] == s[i];
      LookupFinds(s[1..], i - 1);
    }
  }

  /** What `get_media` yields: the bytes of a file; folders have no media. */
  datatype Media = Content(bytes: Bytes) | Refused

  function MediaOf(o: Option<RemoteObject>): Media {
    if o.Some? && !o.value.isFolder then Content(o.value.content) else Refused
  }

  /** The Drive as seen through the client's credentials. */
  class Drive {
    var objects: seq<RemoteObject>
    var nextId: Id

    ghost predicate Valid()
      reads this
    {
      UniqueIds(objects) && forall i :: 0 <= i < |objects| ==> objects[i].id < nextId
    }

    constructor (objects: seq<RemoteObject>, nextId: Id)
      requires UniqueIds(objects) && forall i :: 0 <= i < |objects| ==> objects[i].id < nextId
      ensures Valid() && this.objects == objects && this.nextId == nextId
    {
      this.objects := objects;
      this.nextId := nextId;
    }

    /** `files().list(q=...)`: a read-only search. */
    method List(q: Query) returns (items: seq<RemoteObject>)
      ensures items == Select(objects, q)
      ensures forall o :: o in items ==> o in objects && Matches(q, o)
    {
      items := Select(objects, q);
    }

    /** `files().create(...)`: a new row with a fresh identifier, appended to the table. */
    method Create(name: string, isFolder: bool, parent: Option<Id>, content: Bytes) returns (id: Id)
      requires Valid()
      modifies this
      ensures Valid()
      ensures id == old(nextId) && nextId == old(nextId) + 1
      ensures objects == old(objects) + [RemoteObject(id, name, isFolder, parent, content)]
      ensures forall i :: 0 <= i < |old(objects)| ==> old(objects)[i].id != id
    {
      id := nextId;
      objects := objects + [RemoteObject(id, name, isFolder, parent, content)];
      nextId := nextId + 1;
    }

    /** `files().get_media(fileId=id)`, fetched in one step. */
    method GetMedia(id: Id) returns (m: Media)
      ensures m == MediaOf(Lookup(objects, id))
      ensures m.Content? ==> exists o :: o in objects && o.id == id && !o.isFolder && o.content == m.bytes
    {
      m := MediaOf(Lookup(objects, id));
    }

    /** `files().delete(fileId=id)`. */
    method Delete(id: Id)
      requires Valid()
      modifies this`objects
      ensures Valid()
      ensures objects == Without(old(objects), id)
    {
      WithoutKeepsUnique(objects, id);
      objects := Without(objects, id);
    }
  }
}

=== FILE: storage.dfy ===
/**
 * The storage operations of the command-line client: folder and file name
 * resolution against the Drive table, the interactive numeric choice, and the
 * list, upload, download and remove operations. Each operation is a method on
 * the Drive and the local disk, proved against a pure function that states its
 * whole effect.
 */
module Storage {
  import opened Wrappers
  import opened ByteStrings
  import opened RemoteStore
  import opened LocalFs
  import PyInt

  /** Python truthiness of an optional string argument: given and not empty. */
  predicate Truthy(o: Option<string>) {
    o.Some? && o.value != ""
  }

  // ----- Name resolution -----

  /** `get_folder_id_by_name`: the first folder in the root whose name is exactly `folderName`. */
  function FolderIdByName(objects: seq<RemoteObject>, folderName: string): (r: Option<Id>)
    ensures r.None? <==> forall i :: 0 <= i < |objects| ==>
                            !(objects[i].isFolder && objects[i].name == folderName && objects[i].parent.None?)
    ensures r.Some? ==> exists k :: 0 <= k < |objects| && objects[k].id == r.value &&
                          objects[k].isFolder && objects[k].name == folderName && objects[k].parent.None? &&
                          forall j :: 0 <= j < k ==> !Matches(FolderNamedInRoot(folderName), objects[j])
  {
    var first := FirstMatch(objects, FolderNamedInRoot(folderName));
    if first.None? then None else Some(first.value.id)
  }

  /**
   * `list_and_choose_file` once the root listing is known: the item whose
   * 1-based number the user typed, or `None` for an empty listing, a number
   * out of range or text that is not a number. There is no second prompt.
   */
  function ChooseFile(items: seq<RemoteObject>, raw: string): (r: Option<RemoteObject>)
    ensures items == [] ==> r.None?
    ensures r.Some? ==> exists k :: 1 <= k <= |items| && PyInt.ParseInt(raw) == Some(k) && r.value == items[k - 1]
    ensures r.None? ==> items == [] || PyInt.ParseInt(raw).None? ||
                        !(1 <= PyInt.ParseInt(raw).value <= |items|)
  {
    if items == [] then None
    else
      match PyInt.ParseInt(raw)
      case None => None
      case Some(choice) => if choice < 1 || choice > |items| then None else Some(items[choice - 1])
  }

  /** Typing the label printed beside the k-th item selects the k-th item. */
  lemma ChooseByLabel(items: seq<RemoteObject>, k: nat)
    requires 1 <= k <= |items| && |PyInt.ShowNat(k)| <= PyInt.MaxStrDigits
    ensures ChooseFile(items, PyInt.ShowNat(k)) == Some(items[k - 1])
  {
    PyInt.ParseShowNat(k);
  }

  /** Typing a number beyond the last label selects nothing. */
  lemma ChooseBeyondLast(items: seq<RemoteObject>, k: nat)
    requires k > |items|
    ensures ChooseFile(items, PyInt.ShowNat(k)) == None
  {
    PyInt.ParseShowNat(k);
  }

  /** `list_and_choose_file(service)`: list the root, then take the user's choice. */
  method ListAndChooseFile(drive: Drive, raw: string) returns (r: Option<RemoteObject>)
    ensures r == ChooseFile(Select(drive.objects, ChildrenOfRoot), raw)
    ensures r.Some? ==> r.value in drive.objects && r.value.parent.None?
  {
    var items := drive.List(ChildrenOfRoot);
    r := ChooseFile(items, raw);
  }

  // ----- List -----

  /** One line of the listing: the name and whether it is a folder (its MIME type). */
  datatype ListLine = ListLine(name: string, isFolder: bool)

  /** The lines printed for `items`, one per item, in order. */
  function ListLines(items: seq<RemoteObject>): (lines: seq<ListLine>)
    ensures |lines| == |items|
    ensures forall i :: 0 <= i < |items| ==> lines[i] == ListLine(items[i].name, items[i].isFolder)
  {
    if items == [] then [] else [ListLine(items[0].name, items[0].isFolder)] + ListLines(items[1..])
  }

  /** `ListOperation.execute`: one line per object in the root, in listing order. */
  method ListRoot(drive: Drive) returns (lines: seq<ListLine>)
    ensures var items := Select(drive.objects, ChildrenOfRoot);
            |lines| == |items| &&
            forall i :: 0 <= i < |lines| ==> lines[i] == ListLine(items[i].name, items[i].isFolder)
    ensures forall i :: 0 <= i < |lines| ==>
              exists o :: o in drive.objects && o.parent.None? && lines[i] == ListLine(o.name, o.isFolder)
  {
    var items := drive.List(ChildrenOfRoot);
    lines := [];
    for i := 0 to |items|
      invariant |lines| == i
      invariant forall j :: 0 <= j < i ==> lines[j] == ListLine(items[j].name, items[j].isFolder)
    {
      lines := lines + [ListLine(items[i].name, items[i].isFolder)];
    }
    forall i | 0 <= i < |lines|
      ensures exists o :: o in drive.objects && o.parent.None? && lines[i] == ListLine(o.name, o.isFolder)
    {
      assert items[i] in items;
    }
  }

  // ----- Upload -----

  datatype UploadOutcome = SourceMissing(path: string) | Uploaded(id: Id, path: string)

  /**
   * The table after the creates of `UploadOperation.execute`: at most one new
   * root folder (only when the named folder is not found in the root), then the
   * file, placed in that folder when a folder name was given and in the root
   * otherwise. The rows already there are untouched.
   */
  function AfterUpload(objects: seq<RemoteObject>, nextId: Id, fileName: string, content: Bytes,
                       folderName: Option<string>): (r: seq<RemoteObject>)
    ensures |objects| < |r| <= |objects| + 2 && r[..|objects|] == objects
    ensures r[|r| - 1].id == nextId + |r| - |objects| - 1 && r[|r| - 1].name == fileName &&
            !r[|r| - 1].isFolder && r[|r| - 1].content == content
    ensures r[|r| - 1].parent.Some? <==> Truthy(folderName)
    ensures |r| == |objects| + 2 <==> Truthy(folderName) && FolderIdByName(objects, folderName.value).None?
    ensures |r| == |objects| + 2 ==>
              r[|objects|] == RemoteObject(nextId, folderName.value, true, None, []) &&
              r[|r| - 1].parent == Some(nextId)
    ensures Truthy(folderName) && FolderIdByName(objects, folderName.value).Some? ==>
              r[|r| - 1].parent == FolderIdByName(objects, folderName.value)
  {
    var (placed, parent) := PlaceFolder(objects, nextId, folderName);
    placed + [RemoteObject(nextId + |placed| - |objects|, fileName, false, parent, content)]
  }

  /**
   * The folder step of `UploadOperation.execute`: the table after the optional
   * folder create, and the parent the file will get.
   */
  function PlaceFolder(objects: seq<RemoteObject>, nextId: Id, folderName: Option<string>)
    : (r: (seq<RemoteObject>, Option<Id>))
    ensures |objects| <= |r.0| <= |objects| + 1 && r.0[..|objects|] == objects
    ensures r.1.Some? <==> Truthy(folderName)
    ensures |r.0| == |objects| + 1 <==> Truthy(folderName) && FolderIdByName(objects, folderName.value).None?
    ensures |r.0| == |objects| + 1 ==>
              r.0[|objects|] == RemoteObject(nextId, folderName.value, true, None, []) && r.1 == Some(nextId)
    ensures |r.0| == |objects| && Truthy(folderName) ==> r.1 == FolderIdByName(objects, folderName.value)
  {
    if !Truthy(folderName) then (objects, None)
    else
      match FolderIdByName(objects, folderName.value)
      case Some(f) => (objects, Some(f))
      case None => (objects + [RemoteObject(nextId, folderName.value, true, None, [])], Some(nextId))
  }

  /** The local path the upload reads: the source itself when absolute, else `os.path.abspath(source)`. */
  function SourcePath(source: string, resolved: string): (path: string)
    ensures IsAbs(source) ==> path == source
    ensures !IsAbs(source) ==> path == resolved
    ensures IsAbs(resolved) ==> IsAbs(path)
  {
    if IsAbs(source) then source else resolved
  }

  /** The outcome and the new table of `UploadOperation.execute`. */
  function UploadResult(objects: seq<RemoteObject>, nextId: Id, files: map<string, Bytes>,
                        source: string, resolved: string, folderName: Option<string>): (r: (UploadOutcome, seq<RemoteObject>))
    ensures var path := SourcePath(source, resolved);
            path !in files <==> r.0 == SourceMissing(path)
    ensures SourcePath(source, resolved) in files ==> r.0.Uploaded?
    ensures r.0.SourceMissing? ==> r.1 == objects
    ensures r.0.Uploaded? ==>
              (r.0.path == SourcePath(source, resolved) && r.0.path in files &&
               |objects| < |r.1| && r.1[..|objects|] == objects &&
               r.1[|r.1| - 1] == RemoteObject(r.0.id, Basename(r.0.path), false, r.1[|r.1| - 1].parent, files[r.0.path]))
  {
    var path := SourcePath(source, resolved);
    if path !in files then (SourceMissing(path), objects)
    else
      var after := AfterUpload(objects, nextId, Basename(path), files[path], folderName);
      (Uploaded(after[|after| - 1].id, path), after)
  }

  /** `UploadOperation.execute`. */
  method Upload(drive: Drive, disk: Disk, source: string, resolved: string, folderName: Option<string>)
    returns (outcome: UploadOutcome)
    requires drive.Valid()
    modifies drive
    ensures drive.Valid()
    ensures (outcome, drive.objects) ==
            UploadResult(old(drive.objects), old(drive.nextId), disk.files, source, resolved, folderName)
    ensures drive.nextId == old(drive.nextId) + |drive.objects| - |old(drive.objects)|
  {
    var path := source;
    if !IsAbs(path) {
      path := resolved;
    }
    var found := disk.Exists(path);
    if !found {
      return SourceMissing(path);
    }
    var fileName := Basename(path);
    ghost var before := drive.objects;
    ghost var n := drive.nextId;
    var folderId: Option<Id> := None;
    if Truthy(folderName) {
      folderId := FolderIdByName(drive.objects, folderName.value);
      if folderId.None? {
        var created := drive.Create(folderName.value, true, None, []);
        folderId := Some(created);
      }
    }
    assert (drive.objects, folderId) == PlaceFolder(before, n, folderName);
    assert drive.nextId == n + |drive.objects| - |before|;
    var content := disk.Read(path);
    var id := drive.Create(fileName, false, folderId, content);
    outcome := Uploaded(id, path);
    UploadResultUploaded(before, n, disk.files, source, resolved, folderName, id, drive.objects);
  }

  /**
   * When the source exists, the upload's outcome and table follow from the
   * folder step and the file create.
   */
  lemma UploadResultUploaded(objects: seq<RemoteObject>, nextId: Id, files: map<string, Bytes>,
                             source: string, resolved: string, folderName: Option<string>,
                             id: Id, table: seq<RemoteObject>)
    requires SourcePath(source, resolved) in files
    requires var path := SourcePath(source, resolved);
             var (placed, parent) := PlaceFolder(objects, nextId, folderName);
             id == nextId + |placed| - |objects| &&
             table == placed + [RemoteObject(id, Basename(path), false, parent, files[path])]
    ensures UploadResult(objects, nextId, files, source, resolved, folderName) ==
            (Uploaded(id, SourcePath(source, resolved)), table)
  {
  }

  /**
   * After an upload into a named folder, resolving that folder name finds
   * exactly the folder the file was placed in.
   */
  lemma UploadedIntoResolvedFolder(objects: seq<RemoteObject>, nextId: Id, fileName: string, content: Bytes,
                                   folderName: Option<string>)
    requires Truthy(folderName)
    ensures var r := AfterUpload(objects, nextId, fileName, content, folderName);
            FolderIdByName(r, folderName.value) == r[|r| - 1].parent
  {
    var r := AfterUpload(objects, nextId, fileName, content, folderName);
    var q := FolderNamedInRoot(folderName.value);
    FirstMatchAppend(objects, r[|objects|..], q);
    assert objects + r[|objects|..] == r;
    if FolderIdByName(objects, folderName.value).None? {
      assert r[|objects|..] == [r[|objects|], r[|r| - 1]];
      FirstMatchAppend([r[|objects|]], [r[|r| - 1]], q);
    }
  }

  /** A second upload into the same folder name creates no second folder. */
  lemma SecondUploadReusesFolder(objects: seq<RemoteObject>, nextId: Id, folderName: Option<string>,
                                 name1: string, content1: Bytes, name2: string, content2: Bytes)
    requires Truthy(folderName)
    ensures var r1 := AfterUpload(objects, nextId, name1, content1, folderName);
            var r2 := AfterUpload(r1, nextId + |r1| - |objects|, name2, content2, folderName);
            |r2| == |r1| + 1 && r2[|r2| - 1].parent == r1[|r1| - 1].parent
  {
    UploadedIntoResolvedFolder(objects, nextId, name1, content1, folderName);
  }

  // ----- Download -----

  datatype DownloadOutcome =
    | NoFileNamed(name: string)
    | Downloaded(id: Id, path: string)
    | MediaRefused(id: Id, path: string)  // the service refuses the media; the local file is left empty
    | DownloadNotChosen

  /**
   * `DownloadOperation.download_file_by_name`: the outcome and the new local
   * files. The name is searched everywhere, not only in the root; the first
   * match is fetched into `destination/fileName`.
   */
  function DownloadResult(objects: seq<RemoteObject>, files: map<string, Bytes>, destination: string,
                          fileName: string): (r: (DownloadOutcome, map<string, Bytes>))
    ensures r.0.NoFileNamed? <==> forall i :: 0 <= i < |objects| ==> objects[i].name != fileName
    ensures r.0.NoFileNamed? ==> r.1 == files
    ensures !r.0.NoFileNamed? ==> r.1.Keys == files.Keys + {Join(destination, fileName)}
    ensures forall p :: p in files && p != Join(destination, fileName) ==> r.1[p] == files[p]
    ensures r.0.Downloaded? ==>
              (r.0.path == Join(destination, fileName) &&
               exists o :: o in objects && o.id == r.0.id && o.name == fileName && !o.isFolder &&
                           r.1[r.0.path] == o.content)
    ensures r.0.MediaRefused? ==>
              (r.0.path == Join(destination, fileName) && r.1[r.0.path] == [] &&
               exists o :: o in objects && o.id == r.0.id && o.name == fileName && o.isFolder)
  {
    match FirstMatch(objects, Named(fileName))
    case None => (NoFileNamed(fileName), files)
    case Some(o) =>
      var path := Join(destination, fileName);
      if o.isFolder then (MediaRefused(o.id, path), files[path := []])
      else (Downloaded(o.id, path), files[path := o.content])
  }

  /**
   * Downloading by name fetches the first object with that name, file or folder:
   * a file's bytes are written, while a folder's media is refused and leaves an
   * empty local file.
   */
  lemma DownloadFetchesFirstNamed(objects: seq<RemoteObject>, files: map<string, Bytes>, destination: string,
                                  k: nat)
    requires k < |objects|
    requires forall j :: 0 <= j < k ==> objects[j].name != objects[k].name
    ensures var r := DownloadResult(objects, files, destination, objects[k].name);
            var o := objects[k];
            var path := Join(destination, o.name);
            if o.isFolder then r == (MediaRefused(o.id, path), files[path := []])
            else r == (Downloaded(o.id, path), files[path := o.content])
  {
    var q := Named(objects[k].name);
    SelectHead(objects, q);
    assert FirstIndex(objects, q) == k;
  }

  /** `DownloadOperation.download_file_by_name`. */
  method DownloadByName(drive: Drive, disk: Disk, destination: string, fileName: string)
    returns (outcome: DownloadOutcome)
    requires drive.Valid()
    modifies disk
    ensures (outcome, disk.files) == DownloadResult(drive.objects, old(disk.files), destination, fileName)
  {
    var files := drive.List(Named(fileName));
    if files == [] {
      return NoFileNamed(fileName);
    }
    var fileId := files[0].id;
    ghost var k := FirstIndex(drive.objects, Named(fileName));
    SelectHead(drive.objects, Named(fileName));
    LookupFinds(drive.objects, k);
    var media := drive.GetMedia(fileId);
    var path := Join(destination, fileName);
    if media.Refused? {
      disk.Write(path, []);
      outcome := MediaRefused(fileId, path);
    } else {
      disk.Write(path, media.bytes);
      outcome := Downloaded(fileId, path);
    }
  }

  /**
   * `list_and_choose_file_for_download`: the chosen root item is downloaded by
   * its NAME, so a same-named object elsewhere in the Drive may be fetched instead.
   */
  function InteractiveDownloadResult(objects: seq<RemoteObject>, files: map<string, Bytes>, destination: string,
                                     raw: string): (r: (DownloadOutcome, map<string, Bytes>))
    ensures ChooseFile(Select(objects, ChildrenOfRoot), raw).None? <==> r.0 == DownloadNotChosen
    ensures r.0 == DownloadNotChosen ==> r.1 == files
  {
    match ChooseFile(Select(objects, ChildrenOfRoot), raw)
    case None => (DownloadNotChosen, files)
    case Some(item) => DownloadResult(objects, files, destination, item.name)
  }

  /** `list_and_choose_file_for_download`. */
  method DownloadInteractive(drive: Drive, disk: Disk, destination: string, raw: string)
    returns (outcome: DownloadOutcome)
    requires drive.Valid()
    modifies disk
    ensures (outcome, disk.files) == InteractiveDownloadResult(drive.objects, old(disk.files), destination, raw)
  {
    var selected := ListAndChooseFile(drive, raw);
    if selected.None? {
      return DownloadNotChosen;
    }
    outcome := DownloadByName(drive, disk, destination, selected.value.name);
  }

  /** A root file listed after a same-named file inside a folder. */
  function ShadowedTable(): seq<RemoteObject> {
    [RemoteObject(0, "d", true, Some(7), []),
     RemoteObject(1, "r", false, Some(0), [1]),
     RemoteObject(2, "r", false, None, [2])]
  }

  lemma ShadowedTableRoot()
    ensures Select(ShadowedTable(), ChildrenOfRoot) == [ShadowedTable()[2]]
  {
    var s := ShadowedTable();
    var top := s[2];
    assert [top][1..] == [];
    assert Select([top], ChildrenOfRoot) == [top];
    assert s[1..][1..] == [top];
    assert Select(s[1..], ChildrenOfRoot) == [top];
  }

  /** In that table, typing "1" chooses the root file `r`. */
  lemma ShadowedTableChoice()
    ensures ChooseFile(Select(ShadowedTable(), ChildrenOfRoot), "1") == Some(ShadowedTable()[2])
  {
    ShadowedTableRoot();
    assert PyInt.ShowNat(1) == "1";
    ChooseByLabel([ShadowedTable()[2]], 1);
  }

  /**
   * The re-resolution by name is observable: choosing the root file `r`
   * (label 1, identifier 2) fetches the other `r` (identifier 1), the one inside
   * folder `d`, which the table lists first.
   */
  lemma InteractiveDownloadMayFetchAnotherObject(s: seq<RemoteObject>, raw: string)
    requires s == ShadowedTable() && raw == "1"
    ensures ChooseFile(Select(s, ChildrenOfRoot), raw) == Some(s[2])
    ensures s[2].id == 2
    ensures InteractiveDownloadResult(s, map[], ".", raw).0 == Downloaded(1, "./r")
  {
    ShadowedTableChoice();
    DownloadOfChoice(s, map[], ".", raw, s[2]);
    ShadowedTableDownload(s);
  }

  /** Downloading `r` by name from the example table fetches identifier 1. */
  lemma ShadowedTableDownload(s: seq<RemoteObject>)
    requires s == ShadowedTable()
    ensures DownloadResult(s, map[], ".", s[2].name).0 == Downloaded(1, "./r")
  {
    var o := s[1];
    assert o.id == 1 && o.name == "r" && !o.isFolder && s[2].name == "r";
    assert s[0].name != o.name;
    DownloadFetchesFirstNamed(s, map[], ".", 1);
    assert Join(".", o.name) == "./r";
  }

  /** Once an item is chosen, the interactive download is the download by its name. */
  lemma DownloadOfChoice(objects: seq<RemoteObject>, files: map<string, Bytes>, destination: string, raw: string,
                         item: RemoteObject)
    requires ChooseFile(Select(objects, ChildrenOfRoot), raw) == Some(item)
    ensures InteractiveDownloadResult(objects, files, destination, raw) ==
            DownloadResult(objects, files, destination, item.name)
  {
  }

  /**
   * Upload then download by the same name, with no other object of that name:
   * the bytes written locally are the bytes read at upload.
   */
  lemma UploadThenDownload(objects: seq<RemoteObject>, nextId: Id, files: map<string, Bytes>, source: string,
                           resolved: string, folderName: Option<string>, destination: string)
    requires SourcePath(source, resolved) in files
    requires var name := Basename(SourcePath(source, resolved));
             (forall i :: 0 <= i < |objects| ==> objects[i].name != name) &&
             (Truthy(folderName) ==> folderName.value != name)
    ensures var path := SourcePath(source, resolved);
            var up := UploadResult(objects, nextId, files, source, resolved, folderName);
            var down := DownloadResult(up.1, files, destination, Basename(path));
            var target := Join(destination, Basename(path));
            up.0.Uploaded? && down.0 == Downloaded(up.0.id, target) &&
            target in down.1 && down.1[target] == files[path]
  {
    var path := SourcePath(source, resolved);
    var name := Basename(path);
    var r := UploadResult(objects, nextId, files, source, resolved, folderName).1;
    var k := |r| - 1;
    forall j | 0 <= j < k
      ensures r[j].name != name
    {
      if j < |objects| {
        assert r[j] == r[..|objects|][j];
      } else {
        assert j == |objects| && |r| == |objects| + 2;
      }
    }
    DownloadFetchesFirstNamed(r, files, destination, k);
  }

  // ----- Remove -----

  datatype RemoveOutcome = NoRootFileNamed(name: string) | Removed(id: Id, name: string) | RemoveNotChosen

  /**
   * `RemoveOperation.remove_file_by_name`: only the root is searched, and only
   * the first exact match is deleted.
   */
  function RemoveResult(objects: seq<RemoteObject>, fileName: string): (r: (RemoveOutcome, seq<RemoteObject>))
    requires UniqueIds(objects)
    ensures r.0.NoRootFileNamed? || r.0.Removed?
    ensures r.0.NoRootFileNamed? <==> forall i :: 0 <= i < |objects| ==> !(objects[i].name == fileName && objects[i].parent.None?)
    ensures r.0.NoRootFileNamed? ==> r.1 == objects
    ensures r.0.Removed? ==>
              (r.0.name == fileName &&
               exists k :: 0 <= k < |objects| && objects[k].id == r.0.id && objects[k].name == fileName &&
                           objects[k].parent.None? && r.1 == objects[..k] + objects[k + 1..] &&
                           forall j :: 0 <= j < k ==> !Matches(NamedInRoot(fileName), objects[j]))
  {
    match FirstMatch(objects, NamedInRoot(fileName))
    case None => (NoRootFileNamed(fileName), objects)
    case Some(o) =>
      var k := FirstIndex(objects, NamedInRoot(fileName));
      SelectHead(objects, NamedInRoot(fileName));
      assert objects[k] == o;
      WithoutDropsOne(objects, k);
      (Removed(o.id, fileName), Without(objects, o.id))
  }

  /** `RemoveOperation.remove_file_by_name`. */
  method RemoveByName(drive: Drive, fileName: string) returns (outcome: RemoveOutcome)
    requires drive.Valid()
    modifies drive`objects
    ensures drive.Valid()
    ensures (outcome, drive.objects) == RemoveResult(old(drive.objects), fileName)
  {
    var items := drive.List(NamedInRoot(fileName));
    if items == [] {
      return NoRootFileNamed(fileName);
    }
    var fileId := items[0].id;
    drive.Delete(fileId);
    outcome := Removed(fileId, fileName);
  }

  /** `list_and_choose_file_for_removal`: the chosen item is deleted by its identifier. */
  function InteractiveRemoveResult(objects: seq<RemoteObject>, raw: string): (r: (RemoveOutcome, seq<RemoteObject>))
    requires UniqueIds(objects)
    ensures r.0 == RemoveNotChosen <==> ChooseFile(Select(objects, ChildrenOfRoot), raw).None?
    ensures r.0 == RemoveNotChosen ==> r.1 == objects
    ensures var choice := ChooseFile(Select(objects, ChildrenOfRoot), raw);
            choice.Some? ==> r.0 == Removed(choice.value.id, choice.value.name)
    ensures r.0.Removed? ==>
              exists k :: 0 <= k < |objects| && objects[k].parent.None? &&
                          ChooseFile(Select(objects, ChildrenOfRoot), raw) == Some(objects[k]) &&
                          objects[k].id == r.0.id && objects[k].name == r.0.name &&
                          r.1 == objects[..k] + objects[k + 1..]
  {
    match ChooseFile(Select(objects, ChildrenOfRoot), raw)
    case None => (RemoveNotChosen, objects)
    case Some(item) =>
      assert item in objects;
      var k :| 0 <= k < |objects| && objects[k] == item;
      WithoutDropsOne(objects, k);
      (Removed(item.id, item.name), Without(objects, item.id))
  }

  /** `list_and_choose_file_for_removal`. */
  method RemoveInteractive(drive: Drive, raw: string) returns (outcome: RemoveOutcome)
    requires drive.Valid()
    modifies drive`objects
    ensures drive.Valid()
    ensures (outcome, drive.objects) == InteractiveRemoveResult(old(drive.objects), raw)
  {
    var selected := ListAndChooseFile(drive, raw);
    if selected.None? {
      return RemoveNotChosen;
    }
    drive.Delete(selected.value.id);
    outcome := Removed(selected.value.id, selected.value.name);
  }

  /** Three root items, listed in table order. */
  lemma ListThreeRootItems(a: RemoteObject, b: RemoteObject, c: RemoteObject)
    requires a.parent.None? && b.parent.None? && c.parent.None?
    ensures Select([a, b, c], ChildrenOfRoot) == [a, b, c]
  {
    assert [c][1..] == [];
    assert Select([c], ChildrenOfRoot) == [c];
    assert [b, c][1..] == [c];
    assert Select([b, c], ChildrenOfRoot) == [b, c];
    assert [a, b, c][1..] == [b, c];
  }

  /** Of three root items, typing "2" deletes the second and only the second. */
  lemma InteractiveRemoveSecondOfThree(a: RemoteObject, b: RemoteObject, c: RemoteObject)
    requires a.parent.None? && b.parent.None? && c.parent.None?
    requires UniqueIds([a, b, c])
    ensures InteractiveRemoveResult([a, b, c], "2") == (Removed(b.id, b.name), [a, c])
  {
    var s := [a, b, c];
    ListThreeRootItems(a, b, c);
    assert PyInt.ShowNat(2) == "2";
    ChooseByLabel(s, 2);
    WithoutDropsOne(s, 1);
    assert s[..1] + s[2..] == [a, c];
  }

  /** Of three root items, typing "5" deletes nothing. */
  lemma InteractiveRemoveOutOfRange(a: RemoteObject, b: RemoteObject, c: RemoteObject)
    requires a.parent.None? && b.parent.None? && c.parent.None?
    requires UniqueIds([a, b, c])
    ensures InteractiveRemoveResult([a, b, c], "5") == (RemoveNotChosen, [a, b, c])
  {
    ListThreeRootItems(a, b, c);
    ChooseBeyondLast([a, b, c], 5);
    assert PyInt.ShowNat(5) == "5";
    assert ChooseFile(Select([a, b, c], ChildrenOfRoot), "5").None?;
  }

  /** Typing text that is not a number, such as "abc", deletes nothing. */
  lemma InteractiveRemoveNotANumber(objects: seq<RemoteObject>)
    requires UniqueIds(objects)
    ensures InteractiveRemoveResult(objects, "abc") == (RemoveNotChosen, objects)
  {
    assert PyInt.ParseInt("abc").None? by {
      forall i | 0 <= i < |"abc"|
        ensures !PyInt.IsDigit("abc"[i])
      {
      }
    }
    assert ChooseFile(Select(objects, ChildrenOfRoot), "abc").None?;
  }

  // ----- The four operations -----

  /** The closed set of operation variants the command line can build. */
  datatype Operation =
    | ListFiles
    | Upload(source: string, folderName: Option<string>)
    | Download(fileName: Option<string>, destination: string)
    | Remove(fileName: Option<string>)

  datatype Report =
    | Listed(lines: seq<ListLine>)
    | UploadReport(upload: UploadOutcome)
    | DownloadReport(download: DownloadOutcome)
    | RemoveReport(remove: RemoveOutcome)

  /**
   * The report and the new Drive table, identifier counter and local files after
   * `operation.execute()` of `op`. Only an upload or a removal changes the table,
   * only an upload advances the counter, and only a download writes local files.
   */
  function ExecResult(op: Operation, objects: seq<RemoteObject>, nextId: Id, files: map<string, Bytes>,
                      resolved: string, raw: string): (r: (Report, seq<RemoteObject>, Id, map<string, Bytes>))
    requires UniqueIds(objects)
    ensures op.ListFiles? <==> r.0.Listed?
    ensures op.Upload? <==> r.0.UploadReport?
    ensures op.Download? <==> r.0.DownloadReport?
    ensures op.Remove? <==> r.0.RemoveReport?
    ensures !op.Upload? && !op.Remove? ==> r.1 == objects
    ensures !op.Upload? ==> r.2 == nextId
    ensures op.Upload? ==> |objects| <= |r.1| && r.1[..|objects|] == objects && r.2 == nextId + |r.1| - |objects|
    ensures !op.Download? ==> r.3 == files
    ensures op.ListFiles? ==>
              var items := Select(objects, ChildrenOfRoot);
              |r.0.lines| == |items| &&
              forall i :: 0 <= i < |items| ==> r.0.lines[i] == ListLine(items[i].name, items[i].isFolder)
  {
    match op
    case ListFiles =>
      (Listed(ListLines(Select(objects, ChildrenOfRoot))), objects, nextId, files)
    case Upload(source, folderName) =>
      var u := UploadResult(objects, nextId, files, source, resolved, folderName);
      (UploadReport(u.0), u.1, nextId + |u.1| - |objects|, files)
    case Download(fileName, destination) =>
      var d := if Truthy(fileName) then DownloadResult(objects, files, destination, fileName.value)
               else InteractiveDownloadResult(objects, files, destination, raw);
      (DownloadReport(d.0), objects, nextId, d.1)
    case Remove(fileName) =>
      var m := if Truthy(fileName) then RemoveResult(objects, fileName.value)
               else InteractiveRemoveResult(objects, raw);
      (RemoveReport(m.0), m.1, nextId, files)
  }

  /**
   * `operation.execute()`. `resolved` stands for `os.path.abspath` of the upload
   * source and `raw` for the line the user types at the numeric prompt.
   */
  method Execute(op: Operation, drive: Drive, disk: Disk, resolved: string, raw: string) returns (report: Report)
    requires drive.Valid()
    modifies drive, disk
    ensures drive.Valid()
    ensures (report, drive.objects, drive.nextId, disk.files) ==
            ExecResult(op, old(drive.objects), old(drive.nextId), old(disk.files), resolved, raw)
  {
    match op
    case ListFiles =>
      var lines := ListRoot(drive);
      assert lines == ListLines(Select(drive.objects, ChildrenOfRoot));
      report := Listed(lines);
    case Upload(source, folderName) =>
      var outcome := Upload(drive, disk, source, resolved, folderName);
      report := UploadReport(outcome);
    case Download(fileName, destination) =>
      var outcome;
      if Truthy(fileName) {
        outcome := DownloadByName(drive, disk, destination, fileName.value);
      } else {
        outcome := DownloadInteractive(drive, disk, destination, raw);
      }
      report := DownloadReport(outcome);
    case Remove(fileName) =>
      var outcome;
      if Truthy(fileName) {
        outcome := RemoveByName(drive, fileName.value);
      } else {
        outcome := RemoveInteractive(drive, raw);
      }
      report := RemoveReport(outcome);
  }
}

=== FILE: wrappers.dfy ===
/** Optional values, standing for Python's `None` or a value. */
module Wrappers {

  datatype Option<+T> = None | Some(value: T)
}
